=== FILE: README.md ===
# MQTT-to-S3 batch objects

A Dafny model of the two ends of the MQTT-to-S3 bridge's object format.

The Go **bridge** receives MQTT messages for one bucket. Each message's payload, arrival second and topic go into three parallel buffers. A *stop condition* decides when the buffers are flushed:
- `length` counts messages;
- `bytes` counts payload bytes, topic bytes and 4 bytes of index overhead per message;
- `time` compares the whole seconds between the window start and the message with the threshold; as written the subtraction is reversed (see "## Findings").

A flush does four things:
- encodes the buffers as one object: a JSON index of *header tiles* `{Offset, UnixTime, Topic}`, followed by the payloads laid end to end;
- counts the object;
- uploads it under the decimal Unix second of the flush, with the header length in the `mqtt-header-size` metadata;
- clears the buffers.

The Python **opener** reads such an object back:
- it reads the header length from the metadata and the first that many bytes as the index;
- it gives every tile a `Size`;
- it reads each message with an inclusive byte range.

It also filters tiles by topic or by time, and lists the object keys of a bucket that fall in a time window.

Modules:
- `Results`: `Option` and `Result`.
- `Bytes`: the byte type, concatenation and UTF-8 length.
- `Decimal`: `strconv.Itoa`, and Python's `isnumeric` and `int` on ASCII digits.
- `Selection`: order-preserving filters and the indices they keep.
- `BatchFormat`: the header tile and the encoder.
- `Receiver`: the stop conditions, the receiver loop and the upload request.
- `Opener`: ranged reads and the reader's operations.
- `RoundTrip`: what the reader recovers from what the bridge wrote.

The header serialiser (`json.Marshal`) and parser (`json.loads`) are parameters. The round-trip lemmas assume that the parser inverts the serialiser on the tiles at hand and that the header is not empty. Those that read messages back also size the last tile at the last payload's length, and `RoundTrip.MessagesByTopicReadsBack` also assumes every payload is non-empty.

The store is modelled as an in-memory object answering ranged reads:
- an inverted range (last < first) is invalid (section 2.1 of RFC 7233); the model takes the reading of section 14.35.1 of RFC 2616, under which an invalid range is ignored and the whole object comes back. Section 3.1 of RFC 7233 also lets a server answer such a range with 416 instead;
- a range that starts at or past the end is not satisfiable;
- a last position past the end is cut back to the end.

Clock readings are parameters, in nanoseconds. Go's `Time.Unix()` is floor division by 10^9. Dividing a `Duration` by `time.Second` truncates toward zero.

Four behaviours of the code that a reader might not expect:
- the objects counter is incremented before the upload is attempted, so it counts attempts rather than successful uploads;
- the time window opens when the receiver starts or at the last flush, not at the first buffered message;
- a stop-condition name other than `bytes`, `length` or `time` leaves Go's zero value, which is the time policy;
- object keys are the flush's Unix second, so two flushes in the same second (for example two messages within one second under the length policy with maxSize 1) upload under the same key and the store keeps only the later object.

## Model

| member | source | states |
|---|---|---|
| BatchFormat.BatchTiles | bridge/MqttToS3.go:92-101 | one tile per payload, carrying that payload's arrival second and topic; the first tile is at offset 0 and each next offset adds the previous payload's length |
| BatchFormat.Encode | bridge/MqttToS3.go:103-110 | the object is the serialised index followed by the concatenated payloads; the returned header size is the length of the serialised index; the object length is header plus total payload length |
| BatchFormat.TileOffsetsPack | bridge/MqttToS3.go:92-101 | tile k's offset is the total length of the k payloads before it |
| BatchFormat.LastTileEndsBody | bridge/MqttToS3.go:100-101 | the last tile's offset plus the last payload's length is exactly the body length |
| Receiver.StopConditionOf | bridge/MqttToS3.go:192-200 | "bytes" maps to sizeInBytes, "length" to sizeInLength, and every other name to the time policy (constant 0) |
| Receiver.UploadRequest | bridge/MqttToS3.go:62-74 | the key parses back as the flush second exactly when the second is not negative; the only metadata entry is `mqtt-header-size`, which parses back as the header length; the body is the encoded object |
| Receiver.FlushRequest | bridge/MqttToS3.go:133-134 | the header length in the uploaded metadata splits the body into the serialised index of the flushed batch and its concatenated payloads |
| Receiver.FlushNow | bridge/MqttToS3.go:132-136 | a flush hands over the whole buffer under the Unix second of the clock reading (floor of nanoseconds over 10^9), empties the buffer and counts one object; the message counter, size counter and window start are left to the policy |
| Receiver.Advance | bridge/MqttToS3.go:121-157 | the message is appended to all three buffers before the policy is checked; a flush hands over the buffers including this message, empties them and counts one object; otherwise nothing is counted; for each policy, exactly when it flushes and how the size counter and window start change |
| Receiver.ElapsedAsWritten | bridge/MqttToS3.go:149 | the elapsed seconds as written are start minus now, truncated toward zero: never positive while the clock has not run backwards, and 0 within the first second |
| Receiver.Step | bridge/MqttToS3.go:148-156 | under the time policy as written, it flushes exactly when the truncated seconds of start minus now (`ElapsedAsWritten`, line 149, truncating toward zero as Go's integer division does) reach the threshold, so with a positive threshold and a clock that has not run backwards it never flushes |
| Receiver.StepIntended | bridge/MqttToS3.go:148-156 | the corrected time policy flushes exactly when at least maxSize whole seconds have passed since the window opened, and then restarts the window at now with an empty buffer |
| Receiver.Run | bridge/MqttToS3.go:113-160 | over a sequence of messages, the messages counter grows by their number and the objects counter by the number of flushes; every flushed batch is non-empty with parallel buffers |
| Receiver.RunIntended | bridge/MqttToS3.go:113-160 | the receiver loop with the corrected time policy keeps the same accounting: messages and objects counted, every flushed batch non-empty |
| Receiver.RunIntendedAgreesOffTime | bridge/MqttToS3.go:128-147 | under the length and bytes policies the corrected loop behaves exactly like the loop as written |
| Receiver.TimePolicyIntendedKeepsWindow | bridge/MqttToS3.go:148-156 | with a clock that never runs backwards, the corrected time policy only moves the window start forward, and after each message either a new window has just opened at it with an empty buffer or fewer than maxSize seconds have passed since the window opened |
| Receiver.RunPreservesArrivalOrder | bridge/MqttToS3.go:125-136 | the flushed batches followed by the remaining buffer are the initial buffer followed by the arrivals: nothing is lost, duplicated or reordered |
| Receiver.LengthPolicyFlushesEveryK | bridge/MqttToS3.go:129-137 | under the length policy with threshold k, every flushed batch holds exactly k messages, fewer than k stay buffered, and flushed plus buffered messages equal all messages |
| Receiver.LengthPolicyFromEmptyWindow | bridge/MqttToS3.go:129-137 | after n messages from a fresh receiver, n / k objects have been flushed and n % k messages are buffered |
| Receiver.BytesPolicyBelowThreshold | bridge/MqttToS3.go:138-147 | while the counter plus the accumulated weights stays below the threshold, nothing is flushed and the counter holds the accumulated weight of payload, topic bytes and 4 per message |
| Receiver.BytesPolicyFlushesOnCrossing | bridge/MqttToS3.go:138-147 | the message whose weight makes the total reach the threshold flushes every message since the last flush, and resets the counter |
| Receiver.TimePolicyAsWrittenNeverFlushes | bridge/MqttToS3.go:148-156 | with a positive threshold and no clock reading before the window start, the time policy as written never flushes and buffers every message |
| Receiver.TimePolicyHourLateExample | bridge/MqttToS3.go:149-150 | with a 60-second threshold and a message one hour after the window opened, the code as written keeps buffering and the corrected step flushes |
| Receiver.CountPolicyScenario | bridge/MqttToS3.go:89-111 | a length threshold of 3 with messages "AA", "B", "CCC" gives one object with offsets 0, 2 and 3 and body "AABCCC", and leaves the buffer empty |
| Receiver.OneFlushOfAll | bridge/MqttToS3.go:129-137 | exactly k messages from a fresh receiver with length threshold k flush once, with all of them in arrival order |
| Decimal.IntToDecimal | bridge/MqttToS3.go:67-71 | `strconv.Itoa` gives a non-empty text that starts with a minus sign exactly for negative numbers, with digits after it, and only digits otherwise |
| Decimal.DecimalValue | opener/mqtt_to_s3_opener.py:15 | `int` of n digits is below 10^n, and a leading zero does not change the value |
| Decimal.IntDecimalRoundTrip | bridge/MqttToS3.go:67-71 | `strconv.Itoa` output passes `isnumeric` exactly when the number is not negative, and then `int` gives the number back |
| Opener.RangeGet | opener/mqtt_to_s3_opener.py:84 | the ranged read: an inverted range returns the whole object; a range starting at or past the end fails; an in-bounds range returns exactly those bytes |
| Opener.AddSizes | opener/mqtt_to_s3_opener.py:68-73 | every tile keeps its index entry; every tile but the last is sized as the distance to the next tile's offset; the last gets the size read for it |
| Opener.Open | opener/mqtt_to_s3_opener.py:60-65 | a missing `mqtt-header-size` entry or a non-numeric value is an error; on success the header length is the decimal value, and the tiles are the parsed index, sized: the index is the first header-length bytes, or the whole object when the header length runs past its end |
| Opener.PartOfBody | opener/mqtt_to_s3_opener.py:81-84 | bounds relative to the end of the header, both inclusive: an inverted pair returns the whole object, a start at or past the end fails, and an in-bounds pair returns exactly those body bytes |
| Opener.MessageByTile | opener/mqtt_to_s3_opener.py:81-87 | a tile of size at least 1 inside the object reads exactly its Size bytes after the header; a tile of size 0 or less asks for an inverted range and gets the whole object |
| Opener.MessageByTileIntended | opener/mqtt_to_s3_opener.py:86-87 | an empty message reads as no bytes; other tiles read as in the code |
| Opener.MessagesByTiles | opener/mqtt_to_s3_opener.py:114-118 | succeeds exactly when every tile's read succeeds, and then holds one message per tile, in tile order |
| Opener.MessagesByTopic | opener/mqtt_to_s3_opener.py:120-122 | one read per tile on the topic, at exactly those tiles' positions in tile order; it succeeds exactly when each of those reads does |
| Opener.MessagesByTimeRange | opener/mqtt_to_s3_opener.py:124-126 | one read per tile with start <= UnixTime <= end, at exactly those tiles' positions in tile order; it succeeds exactly when each of those reads does |
| Opener.TopicFilterExact | opener/mqtt_to_s3_opener.py:120-122 | the topic query reads exactly the tiles on that topic, in tile order |
| Opener.TimeFilterExact | opener/mqtt_to_s3_opener.py:124-126 | the time query reads exactly the tiles with start <= UnixTime <= end, in tile order |
| Opener.TopicList | opener/mqtt_to_s3_opener.py:108-109 | every tile's topic appears, only tile topics appear, and none appears twice |
| Opener.TimeRange | opener/mqtt_to_s3_opener.py:111-112 | the times of the first and the last tile; an object with no tiles is an error |
| Opener.KeysInWindow | opener/mqtt_to_s3_opener.py:15 | exactly the numeric keys whose value lies in [start, end], as integers, in listing order |
| Selection.SelectIsOrderedSubsequence | opener/mqtt_to_s3_opener.py:121 | a list-comprehension filter is the subsequence of its input at the kept indices |
| RoundTrip.SizesRecoverPayloadLengths | opener/mqtt_to_s3_opener.py:72-73 | on an encoded batch, every tile but the last is sized at exactly its payload's length |
| RoundTrip.OpenUploadedObject | opener/mqtt_to_s3_opener.py:60-65 | opening an uploaded object gives back the encoder's header length and tiles |
| RoundTrip.ReadBackPayload | opener/mqtt_to_s3_opener.py:86-87 | in an encoded batch, the corrected read of payload i returns exactly payload i, and so does the read as written when the payload is not empty |
| RoundTrip.UploadedBatchReadsBack | opener/mqtt_to_s3_opener.py:60-126 | from a flushed batch's upload, the reader recovers one tile per message with its second and topic, and the first and last seconds; the corrected read recovers every message's bytes, the read as written every non-empty one |
| RoundTrip.MessagesByTopicReadsBack | opener/mqtt_to_s3_opener.py:120-122 | querying an encoded batch of non-empty messages by topic returns exactly the messages on that topic, in arrival order |
| RoundTrip.EmptyPayloadReadsWholeObject | opener/mqtt_to_s3_opener.py:86-87 | an empty message before the last reads back, as written, as the whole object and not as no bytes |
| RoundTrip.EmptyPayloadExample | opener/mqtt_to_s3_opener.py:86-87 | for the batch [empty, [7]], the read as written of the empty message is not empty, and the corrected read is |
| RoundTrip.FlushKeySelected | opener/mqtt_to_s3_opener.py:15 | the object of a flush at second t is listed exactly when t is not negative and lies in the window |

## Left out

- The MQTT client, topic subscriptions, the per-bucket channels and goroutines. Arrivals are given as a sequence of messages with clock readings.
- The S3 session, the uploader and the outcome of an upload. The bridge ignores the outcome; the model stops at the request.
- Prometheus registration, YAML configuration loading, logging and the `__main__` demonstration.
- `json.Marshal` and `json.loads` are parameters, not implementations of JSON.
- Receiver.Step: each message is read against one clock reading. The Go code reads the clock several times per message, and the nanoseconds between those reads are ignored.
- Receiver.Run: `numberOfMessages` and `numberOfObjects` are process-wide in the bridge. The model counts them per receiver.
- Receiver.Advance: Go's 64-bit `int`, `int64` and `Duration` (including `Sub` saturating) are unbounded integers here. The counter and offsets cannot overflow in the model.
- Decimal.IntDecimalRoundTrip: `isnumeric` and `int` are modelled on ASCII digits only; other Unicode digits are left out.
- RoundTrip.ReadBackPayload: its claim about the read as written assumes the last tile is sized at the last payload's length. For a one-message batch the source sizes it at 1 (see the Opener.AddSizes line), and a message longer than one byte reads back cut to its first byte.
- RoundTrip.MessagesByTopicReadsBack: holds only with the last tile sized at the last payload's length and with every payload non-empty. In the source a one-message batch reads back cut to one byte (see the Opener.AddSizes line), and an empty message reads back as the whole object (see "## Findings").
- RoundTrip.UploadedBatchReadsBack: the last tile's size is supplied as the last payload's length rather than read from the store, so the lemma says nothing about the size opener/mqtt_to_s3_opener.py:71 actually computes.
- Opener.AddSizes: the last tile's size comes from `get_part_of_body(offset, '')` (opener/mqtt_to_s3_opener.py:71), and line 83 turns the empty end into 0, so the read is `bytes=h+offset-h`. With offset at least 1 that range is inverted and its result depends on the store. With offset 0, the only tile of a one-message batch, it is exactly the byte at h: that tile's size becomes 1 and its message reads back cut to its first byte. Under the length policy with maxSize 1 every flush is such a batch. The model takes the last size as a parameter, so the round-trip lemmas' claims about the code as written stop holding there.
- Opener.KeysInWindow: keeps only keys made of ASCII digits. Python's `isnumeric` and `int` also accept other Unicode decimal digits, so a key such as "٣" is kept there as 3 and dropped here. A key that is numeric but not decimal, such as "²", makes `int` raise `ValueError` in the bucket opener's constructor, while the model skips it without error. The bridge only ever writes ASCII keys.
- Opener.Open: Python's `int` also accepts surrounding whitespace and a leading sign (`int(" 12")`, `int("+12")`), while `Open` reports `HeaderSizeNotNumeric` for any header-size text that is not all ASCII digits. The bridge always writes plain digits.
- Opener.RangeGet: follows a store that ignores invalid ranges. With a store that answers them with 416, a Size-0 tile's read (opener/mqtt_to_s3_opener.py:87) and the header read for a header length of 0 (line 62) fail instead of returning the whole object.
- Opener.Open: a header length of 0 makes the header read ask for bytes 0 to -1. That is not given a specific outcome beyond what `RangeGet` returns.
- `get_messages`, `get_messages_by_range`, `get_message_by_index`, `get_next_tile` and `get_object_body` are not modelled.
- The bucket opener's aggregations over its objects are not modelled. They construct object openers with the wrong number of arguments (opener/mqtt_to_s3_opener.py:16).

## Findings

| source | as written | input that shows it | evidently intended | confidence | as-written member | corrected member |
|---|---|---|---|---|---|---|
| bridge/MqttToS3.go:149-150 | `startTime.Sub(time.Now())` is start minus now: zero or negative while the clock moves forward | time policy with maxSize 60 and a message 3600 s after start: elapsed is -3600, so there is no flush, ever | elapsed is now minus start; flush once maxSize seconds have passed | high (not executed) | Receiver.TimePolicyAsWrittenNeverFlushes | Receiver.RunIntended |
| opener/mqtt_to_s3_opener.py:86-87 | a tile of Size 0 asks for `bytes={h+o}-{h+o-1}`, an inverted range; a store that ignores invalid ranges answers with the whole object, one that answers 416 makes the read raise | the batch [empty, [7]]: message 0 reads back as the whole object (or the read raises) | an empty message reads back as no bytes | medium (not executed; either way the empty message never reads back as no bytes; the model shows the ignoring store) | RoundTrip.EmptyPayloadReadsWholeObject | Opener.MessageByTileIntended |

=== FILE: batch_format.dfy ===
/**
 * The batch object the bridge writes for one flush: a serialised index of
 * header tiles followed by the concatenated payloads (`mqttPayloadArrToS3Payload`).
 */
module BatchFormat {
  import opened Bytes

  /** One index entry: where a payload starts in the body, when it arrived, on which topic. */
  datatype HeaderTile = HeaderTile(offset: nat, unixTime: int, topic: string)

  /** The header serialiser (`json.Marshal` of `{"tiles": tiles}`), left uninterpreted. */
  type Marshal = seq<HeaderTile> -> Bytes

  /** What the encoder returns: the whole object and the length of its header. */
  datatype Encoded = Encoded(content: Bytes, headerSize: nat)

  /** Object metadata key under which the header length is stored. */
  const HeaderSizeKey: string := "mqtt-header-size"

  /**
   * The encoder loop from payload `i` on, with `offset` the running body length
   * before payload `i` is appended.
   */
  function TilesFrom(payloads: seq<Bytes>, times: seq<int>, topics: seq<string>, i: nat, offset: nat): (r: seq<HeaderTile>)
    requires i <= |payloads| <= |times| && |payloads| <= |topics|
    ensures |r| == |payloads| - i
    ensures forall k :: 0 <= k < |r| ==> r[k].unixTime == times[i + k] && r[k].topic == topics[i + k]
    ensures |r| > 0 ==> r[0].offset == offset
    ensures forall j, k :: 0 <= j < k < |r| && k == j + 1 ==> r[k].offset == r[j].offset + |payloads[i + j]|
    decreases |payloads| - i
  {
    if i == |payloads| then []
    else [HeaderTile(offset, times[i], topics[i])] + TilesFrom(payloads, times, topics, i + 1, offset + |payloads[i]|)
  }

  /** The index of a whole batch: one tile per payload, the first at offset 0. */
  function BatchTiles(payloads: seq<Bytes>, times: seq<int>, topics: seq<string>): (r: seq<HeaderTile>)
    requires |payloads| <= |times| && |payloads| <= |topics|
    ensures |r| == |payloads|
    ensures forall k :: 0 <= k < |r| ==> r[k].unixTime == times[k] && r[k].topic == topics[k]
    ensures |r| > 0 ==> r[0].offset == 0
    ensures forall j, k :: 0 <= j < k < |r| && k == j + 1 ==> r[k].offset == r[j].offset + |payloads[j]|
  {
    TilesFrom(payloads, times, topics, 0, 0)
  }

  /**
   * `mqttPayloadArrToS3Payload`: the serialised index followed by the body.
   * Go indexes the time and topic arrays by payload position, so they must be
   * at least as long as the payload array.
   */
  function Encode(payloads: seq<Bytes>, times: seq<int>, topics: seq<string>, marshal: Marshal): (e: Encoded)
    requires |payloads| <= |times| && |payloads| <= |topics|
    ensures e.headerSize == |marshal(BatchTiles(payloads, times, topics))|
    ensures |e.content| == e.headerSize + TotalLength(payloads)
    ensures e.content[..e.headerSize] == marshal(BatchTiles(payloads, times, topics))
    ensures e.content[e.headerSize..] == Concat(payloads)
  {
    var header := marshal(BatchTiles(payloads, times, topics));
    var body := Concat(payloads);
    ConcatLength(payloads);
    Encoded(header + body, |header|)
  }

  /** Tile k starts after the k payloads before it (tile 0 at offset 0). */
  lemma {:induction false} TileOffsetsPack(payloads: seq<Bytes>, times: seq<int>, topics: seq<string>)
    requires |payloads| <= |times| && |payloads| <= |topics|
    ensures forall k :: 0 <= k < |payloads| ==> BatchTiles(payloads, times, topics)[k].offset == TotalLength(payloads[..k])
  {
    var tiles := BatchTiles(payloads, times, topics);
    assert |tiles| == |payloads|;
    assert forall j, k :: 0 <= j < k < |tiles| && k == j + 1 ==> tiles[k].offset == tiles[j].offset + |payloads[j]|;
    OffsetIsPrefixLength(payloads, tiles, |tiles|);
    assert forall k :: 0 <= k < |tiles| ==> tiles[k].offset == TotalLength(payloads[..k]);
  }

  /** The last tile's payload ends exactly where the body ends. */
  lemma {:induction false} LastTileEndsBody(payloads: seq<Bytes>, times: seq<int>, topics: seq<string>)
    requires 0 < |payloads| <= |times| && |payloads| <= |topics|
    ensures var n := |payloads|;
      BatchTiles(payloads, times, topics)[n - 1].offset + |payloads[n - 1]| == |Concat(payloads)|
  {
    var n := |payloads|;
    TileOffsetsPack(payloads, times, topics);
    ConcatLength(payloads);
    assert BatchTiles(payloads, times, topics)[n - 1].offset == TotalLength(payloads[..n - 1]);
  }

  lemma {:induction false} OffsetIsPrefixLength(payloads: seq<Bytes>, tiles: seq<HeaderTile>, m: nat)
    requires |tiles| == |payloads| && m <= |tiles|
    requires |tiles| > 0 ==> tiles[0].offset == 0
    requires forall j, k :: 0 <= j < k < |tiles| && k == j + 1 ==> tiles[k].offset == tiles[j].offset + |payloads[j]|
    ensures forall k :: 0 <= k < m ==> tiles[k].offset == TotalLength(payloads[..k])
  {
    if m > 0 {
      OffsetIsPrefixLength(payloads, tiles, m - 1);
      var k := m - 1;
      if k > 0 {
        assert payloads[..k][..k - 1] == payloads[..k - 1];
      }
    }
  }
}

=== FILE: bytes.dfy ===
/** Byte strings as the bridge writes them and the reader slices them. */
module Bytes {

  newtype byte = b: int | 0 <= b < 256

  type Bytes = seq<byte>

  /** The in-order concatenation of payloads, one `append(body, payload...)` per payload. */
  function Concat(ps: seq<Bytes>): Bytes
  {
    if |ps| == 0 then [] else Concat(ps[..|ps| - 1]) + ps[|ps| - 1]
  }

  /** The sum of the payload lengths. */
  function TotalLength(ps: seq<Bytes>): nat
  {
    if |ps| == 0 then 0 else TotalLength(ps[..|ps| - 1]) + |ps[|ps| - 1]|
  }

  /** Number of bytes a character takes in UTF-8 (Go's `len` of a string counts bytes). */
  function CharUtf8Length(c: char): nat
  {
    if c as int < 0x80 then 1
    else if c as int < 0x800 then 2
    else if c as int < 0x1_0000 then 3
    else 4
  }

  /** Go's `len(s)` for a string holding the UTF-8 encoding of `s`. */
  function Utf8Length(s: string): nat
  {
    if |s| == 0 then 0 else Utf8Length(s[..|s| - 1]) + CharUtf8Length(s[|s| - 1])
  }

  /** The body holds exactly as many bytes as the payloads together. */
  lemma {:induction false} ConcatLength(ps: seq<Bytes>)
    ensures |Concat(ps)| == TotalLength(ps)
  {
    if |ps| > 0 {
      ConcatLength(ps[..|ps| - 1]);
    }
  }

  /** Concatenation distributes over any split point of the payload list. */
  lemma {:induction false} ConcatSplit(ps: seq<Bytes>, k: nat)
    requires k <= |ps|
    ensures Concat(ps) == Concat(ps[..k]) + Concat(ps[k..])
    decreases |ps|
  {
    if k == |ps| {
      assert ps[..k] == ps;
      assert ps[k..] == [];
    } else {
      var n := |ps|;
      var init := ps[..n - 1];
      ConcatSplit(init, k);
      assert init[..k] == ps[..k];
      assert ps[k..][..|ps[k..]| - 1] == init[k..];
      assert ps[k..][|ps[k..]| - 1] == ps[n - 1];
    }
  }

  /** Payload k sits in the body right after the payloads before it. */
  lemma ConcatElement(ps: seq<Bytes>, k: nat)
    requires k < |ps|
    ensures TotalLength(ps[..k]) + |ps[k]| == TotalLength(ps[..k + 1]) <= |Concat(ps)|
    ensures Concat(ps)[TotalLength(ps[..k]) .. TotalLength(ps[..k]) + |ps[k]|] == ps[k]
  {
    ConcatSplit(ps, k + 1);
    assert ps[..k + 1][..k] == ps[..k];
    ConcatLength(ps[..k]);
    ConcatLength(ps[..k + 1]);
    ConcatLength(ps);
  }
}

=== FILE: decimal.dfy ===
/**
 * Decimal text for integers: Go's `strconv.Itoa` on the writing side, Python's
 * `str.isnumeric` and `int(s)` on the reading side (ASCII digits only).
 */
module Decimal {

  predicate IsDigit(c: char)
  {
    '0' <= c <= '9'
  }

  predicate AllDigits(s: string)
  {
    forall i :: 0 <= i < |s| ==> IsDigit(s[i])
  }

  /** Python's `s.isnumeric()`: non-empty and made of digits only. */
  predicate IsNumeric(s: string)
  {
    |s| > 0 && AllDigits(s)
  }

  function DigitChar(d: nat): (c: char)
    requires d < 10
    ensures IsDigit(c)
  {
    (48 + d) as char
  }

  function DigitValue(c: char): (d: nat)
    requires IsDigit(c)
    ensures d < 10
  {
    c as int - 48
  }

  /** `strconv.Itoa` of a non-negative value. */
  function NatToDecimal(n: nat): (s: string)
    ensures IsNumeric(s)
  {
    if n < 10 then [DigitChar(n)] else NatToDecimal(n / 10) + [DigitChar(n % 10)]
  }

  /** `strconv.Itoa`: a minus sign in front of negative values. */
  function IntToDecimal(i: int): (s: string)
    ensures |s| >= 1
    ensures s[0] == '-' <==> i < 0
    ensures i < 0 ==> IsNumeric(s[1..])
    ensures i >= 0 ==> IsNumeric(s)
  {
    if i < 0 then "-" + NatToDecimal(-i) else NatToDecimal(i)
  }

  function Power10(n: nat): (p: nat)
    ensures p >= 1
  {
    if n == 0 then 1 else 10 * Power10(n - 1)
  }

  /**
   * Python's `int(s)` on a string of digits: n digits give a value below
   * 10^n, and a leading zero does not change the value.
   */
  function DecimalValue(s: string): (r: nat)
    requires AllDigits(s)
    ensures r < Power10(|s|)
    ensures |s| >= 1 && s[0] == '0' ==> r == DecimalValue(s[1..])
  {
    if |s| == 0 then 0
    else
      var init := s[..|s| - 1];
      var r := DecimalValue(init) * 10 + DigitValue(s[|s| - 1]);
      assert |init| >= 1 && init[0] == '0' ==> init[1..] == s[1..][..|s| - 2];
      r
  }

  /** `int(strconv.Itoa(n)) == n` for every non-negative n. */
  lemma {:induction false} DecimalRoundTrip(n: nat)
    ensures IsNumeric(NatToDecimal(n))
    ensures DecimalValue(NatToDecimal(n)) == n
  {
    var s := NatToDecimal(n);
    if n >= 10 {
      DecimalRoundTrip(n / 10);
      assert s[..|s| - 1] == NatToDecimal(n / 10);
    } else {
      assert s[..|s| - 1] == [];
    }
  }

  /** The text of a negative number is never numeric. */
  lemma NegativeNotNumeric(i: int)
    requires i < 0
    ensures !IsNumeric(IntToDecimal(i))
  {
    assert IntToDecimal(i)[0] == '-';
  }

  /** The text of an integer is numeric exactly when it is non-negative, and then reads back as itself. */
  lemma IntDecimalRoundTrip(i: int)
    ensures IsNumeric(IntToDecimal(i)) <==> i >= 0
    ensures i >= 0 ==> DecimalValue(IntToDecimal(i)) == i
  {
    if i < 0 {
      NegativeNotNumeric(i);
    } else {
      DecimalRoundTrip(i);
    }
  }
}

=== FILE: opener.dfy ===
/**
 * The reader of batch objects (`Mqtt_to_s3_object_opener` and the key filter
 * of `Mqtt_to_s3_bucket_opener`), working on an object held in memory
 * instead of ranged reads from the store.
 */
module Opener {
  import opened Results
  import opened Bytes
  import opened Decimal
  import opened Selection
  import opened BatchFormat

  datatype ReadError = MissingHeaderSize | HeaderSizeNotNumeric | MalformedHeader | RangeNotSatisfiable | NoTiles

  /**
   * A ranged read of bytes `first..last`, both inclusive. A range whose last
   * position is before its first is invalid (section 2.1 of RFC 7233); the
   * model takes the reading of section 14.35.1 of RFC 2616, under which an
   * invalid range is ignored and the whole object comes back. A range
   * starting past the end is not satisfiable, and a last position past the
   * end is cut back to the end.
   */
  function RangeGet(content: Bytes, first: nat, last: int): (r: Result<Bytes, ReadError>)
    ensures last < first ==> r == Ok(content)
    ensures first <= last && first >= |content| ==> r == Err(RangeNotSatisfiable)
    ensures first <= last && first < |content| <= last ==> r == Ok(content[first..])
    ensures first <= last < |content| ==> r == Ok(content[first..last + 1])
  {
    if last < first then Ok(content)
    else if first >= |content| then Err(RangeNotSatisfiable)
    else if last >= |content| then Ok(content[first..])
    else Ok(content[first..last + 1])
  }

  /** A header tile with the `Size` the reader adds to it. */
  datatype SizedTile = SizedTile(tile: HeaderTile, size: int)

  /** An opened object: its bytes, the header length from its metadata, and its sized tiles. */
  datatype ObjectOpener = ObjectOpener(content: Bytes, headerSize: nat, tiles: seq<SizedTile>)

  /** The header parser (`json.loads(...)['tiles']`), left uninterpreted; `None` when it raises. */
  type Parse = Bytes -> Option<seq<HeaderTile>>

  /**
   * `add_size_to_tiles`: every tile but the last gets the distance to the
   * next tile's offset; the last tile's size, which the reader asks the store
   * for, is supplied as `lastSize`.
   */
  function AddSizes(tiles: seq<HeaderTile>, lastSize: int): (r: seq<SizedTile>)
    ensures |r| == |tiles|
    ensures forall i {:trigger r[i]} :: 0 <= i < |r| ==> r[i].tile == tiles[i]
    ensures forall i {:trigger r[i]} :: 0 <= i < |r| - 1 ==> r[i].size == tiles[i + 1].offset - tiles[i].offset
    ensures |r| > 0 ==> r[|r| - 1].size == lastSize
  {
    seq(|tiles|, i requires 0 <= i < |tiles| =>
      SizedTile(tiles[i], if i == |tiles| - 1 then lastSize else tiles[i + 1].offset - tiles[i].offset))
  }

  /**
   * `get_part_of_body` with both bounds given: a ranged read of the body,
   * both bounds relative to the end of the header and inclusive.
   */
  function PartOfBody(content: Bytes, h: nat, start: nat, end: int): (r: Result<Bytes, ReadError>)
    ensures end < start ==> r == Ok(content)
    ensures start <= end && h + start >= |content| ==> r == Err(RangeNotSatisfiable)
    ensures start <= end && h + end < |content| ==> r == Ok(content[h + start .. h + end + 1])
  {
    RangeGet(content, h + start, h + end)
  }

  /**
   * The object opener's constructor: read the header length from the
   * metadata, read that many bytes from the start, parse the tiles and size them.
   */
  function Open(content: Bytes, metadata: map<string, string>, parse: Parse, lastSize: int): (r: Result<ObjectOpener, ReadError>)
    ensures HeaderSizeKey !in metadata ==> r == Err(MissingHeaderSize)
    ensures HeaderSizeKey in metadata && !IsNumeric(metadata[HeaderSizeKey]) ==> r == Err(HeaderSizeNotNumeric)
    ensures r.Ok? ==>
      && HeaderSizeKey in metadata && IsNumeric(metadata[HeaderSizeKey])
      && r.value.headerSize == DecimalValue(metadata[HeaderSizeKey])
      && r.value.content == content
      && (1 <= r.value.headerSize <= |content| ==>
            parse(content[..r.value.headerSize]).Some?
            && r.value.tiles == AddSizes(parse(content[..r.value.headerSize]).value, lastSize))
      && (|content| >= 1 && r.value.headerSize > |content| ==>
            parse(content).Some? && r.value.tiles == AddSizes(parse(content).value, lastSize))
  {
    if HeaderSizeKey !in metadata then Err(MissingHeaderSize)
    else if !IsNumeric(metadata[HeaderSizeKey]) then Err(HeaderSizeNotNumeric)
    else
      var h := DecimalValue(metadata[HeaderSizeKey]);
      match RangeGet(content, 0, h - 1)
      case Err(e) => Err(e)
      case Ok(header) =>
        match parse(header)
        case None => Err(MalformedHeader)
        case Some(tiles) => Ok(ObjectOpener(content, h, AddSizes(tiles, lastSize)))
  }

  /**
   * `get_message_by_tile` as written: the inclusive range of `Size` bytes from
   * `Offset`. A tile of size 0 asks for an inverted range, which a store
   * that ignores invalid ranges answers with the whole object.
   */
  function MessageByTile(o: ObjectOpener, t: SizedTile): (r: Result<Bytes, ReadError>)
    ensures t.size >= 1 && o.headerSize + t.tile.offset + t.size <= |o.content| ==>
      r == Ok(o.content[o.headerSize + t.tile.offset .. o.headerSize + t.tile.offset + t.size])
    ensures t.size <= 0 ==> r == Ok(o.content)
  {
    PartOfBody(o.content, o.headerSize, t.tile.offset, t.tile.offset + t.size - 1)
  }

  /** The read `get_message_by_tile` is meant to perform: exactly `Size` bytes, none for an empty message. */
  function MessageByTileIntended(o: ObjectOpener, t: SizedTile): (r: Result<Bytes, ReadError>)
    ensures t.size == 0 ==> r == Ok([])
    ensures t.size >= 1 && o.headerSize + t.tile.offset + t.size <= |o.content| ==>
      r == Ok(o.content[o.headerSize + t.tile.offset .. o.headerSize + t.tile.offset + t.size])
  {
    if t.size == 0 then Ok([]) else MessageByTile(o, t)
  }

  /** `get_messages_by_tiles`: one read per tile, in order; the first failing read aborts. */
  function MessagesByTiles(o: ObjectOpener, ts: seq<SizedTile>): (r: Result<seq<Bytes>, ReadError>)
    ensures r.Ok? <==> forall i :: 0 <= i < |ts| ==> MessageByTile(o, ts[i]).Ok?
    ensures r.Ok? ==> |r.value| == |ts| && forall i :: 0 <= i < |ts| ==> r.value[i] == MessageByTile(o, ts[i]).value
  {
    if |ts| == 0 then Ok([])
    else
      match MessagesByTiles(o, ts[..|ts| - 1])
      case Err(e) => Err(e)
      case Ok(init) =>
        match MessageByTile(o, ts[|ts| - 1])
        case Err(e) => Err(e)
        case Ok(m) => Ok(init + [m])
  }

  function HasTopic(topic: string): SizedTile -> bool
  {
    (t: SizedTile) => t.tile.topic == topic
  }

  function InTimeRange(start: int, end: int): SizedTile -> bool
  {
    (t: SizedTile) => start <= t.tile.unixTime <= end
  }

  /** The tiles `get_messages_by_topic` reads. */
  function TilesWithTopic(tiles: seq<SizedTile>, topic: string): seq<SizedTile>
  {
    Select(tiles, HasTopic(topic))
  }

  /** The tiles `get_messages_by_time_range` reads: both bounds inclusive. */
  function TilesInTimeRange(tiles: seq<SizedTile>, start: int, end: int): seq<SizedTile>
  {
    Select(tiles, InTimeRange(start, end))
  }

  /**
   * `get_messages_by_topic`: one read per tile on the topic, in tile order;
   * it succeeds exactly when each of those reads does.
   */
  function MessagesByTopic(o: ObjectOpener, topic: string): (r: Result<seq<Bytes>, ReadError>)
    ensures var idx := KeptIndices(o.tiles, HasTopic(topic));
      && (r.Ok? <==> forall j :: 0 <= j < |idx| ==> MessageByTile(o, o.tiles[idx[j]]).Ok?)
      && (r.Ok? ==> |r.value| == |idx| && forall j :: 0 <= j < |idx| ==> r.value[j] == MessageByTile(o, o.tiles[idx[j]]).value)
  {
    SelectIsOrderedSubsequence(o.tiles, HasTopic(topic));
    MessagesByTiles(o, TilesWithTopic(o.tiles, topic))
  }

  /**
   * `get_messages_by_time_range`: one read per tile with `start <= UnixTime <= end`,
   * in tile order; it succeeds exactly when each of those reads does.
   */
  function MessagesByTimeRange(o: ObjectOpener, start: int, end: int): (r: Result<seq<Bytes>, ReadError>)
    ensures var idx := KeptIndices(o.tiles, InTimeRange(start, end));
      && (r.Ok? <==> forall j :: 0 <= j < |idx| ==> MessageByTile(o, o.tiles[idx[j]]).Ok?)
      && (r.Ok? ==> |r.value| == |idx| && forall j :: 0 <= j < |idx| ==> r.value[j] == MessageByTile(o, o.tiles[idx[j]]).value)
  {
    SelectIsOrderedSubsequence(o.tiles, InTimeRange(start, end));
    MessagesByTiles(o, TilesInTimeRange(o.tiles, start, end))
  }

  /** The topic filter keeps exactly the tiles on that topic, in tile order. */
  lemma TopicFilterExact(tiles: seq<SizedTile>, topic: string)
    ensures var sel := TilesWithTopic(tiles, topic);
      var idx := KeptIndices(tiles, HasTopic(topic));
      && |sel| == |idx|
      && (forall j :: 0 <= j < |sel| ==> sel[j] == tiles[idx[j]] && sel[j].tile.topic == topic)
      && (forall j, k :: 0 <= j < k < |idx| ==> idx[j] < idx[k])
      && (forall i :: 0 <= i < |tiles| ==> (tiles[i].tile.topic == topic <==> i in idx))
  {
    SelectIsOrderedSubsequence(tiles, HasTopic(topic));
  }

  /** The time filter keeps exactly the tiles with `start <= UnixTime <= end`, in tile order. */
  lemma TimeFilterExact(tiles: seq<SizedTile>, start: int, end: int)
    ensures var sel := TilesInTimeRange(tiles, start, end);
      var idx := KeptIndices(tiles, InTimeRange(start, end));
      && |sel| == |idx|
      && (forall j :: 0 <= j < |sel| ==> sel[j] == tiles[idx[j]] && start <= sel[j].tile.unixTime <= end)
      && (forall j, k :: 0 <= j < k < |idx| ==> idx[j] < idx[k])
      && (forall i :: 0 <= i < |tiles| ==> (start <= tiles[i].tile.unixTime <= end <==> i in idx))
  {
    SelectIsOrderedSubsequence(tiles, InTimeRange(start, end));
  }

  /** `get_topic_list`: every tile topic once, and nothing else (the order is not part of the contract). */
  function TopicList(tiles: seq<SizedTile>): (r: seq<string>)
    ensures forall i, j :: 0 <= i < j < |r| ==> r[i] != r[j]
    ensures forall i :: 0 <= i < |tiles| ==> tiles[i].tile.topic in r
    ensures forall j :: 0 <= j < |r| ==> exists i :: 0 <= i < |tiles| && tiles[i].tile.topic == r[j]
  {
    if |tiles| == 0 then []
    else
      var init := tiles[..|tiles| - 1];
      var rest := TopicList(init);
      var t := tiles[|tiles| - 1].tile.topic;
      assert forall i :: 0 <= i < |init| ==> init[i] == tiles[i];
      if t in rest then rest else rest + [t]
  }

  /** `get_time_range`: the times of the first and last tile; indexing an empty list raises. */
  function TimeRange(o: ObjectOpener): (r: Result<(int, int), ReadError>)
    ensures r.Ok? <==> |o.tiles| > 0
    ensures r.Ok? ==> r.value.0 == o.tiles[0].tile.unixTime && r.value.1 == o.tiles[|o.tiles| - 1].tile.unixTime
  {
    if |o.tiles| == 0 then Err(NoTiles)
    else Ok((o.tiles[0].tile.unixTime, o.tiles[|o.tiles| - 1].tile.unixTime))
  }

  function KeyInWindow(start: int, end: int): string -> bool
  {
    (k: string) => IsNumeric(k) && start <= DecimalValue(k) <= end
  }

  /**
   * The bucket opener's key list: the numeric object keys whose value lies in
   * `[start, end]`, converted to integers, in listing order.
   */
  function KeysInWindow(keys: seq<string>, start: int, end: int): (r: seq<int>)
    ensures var idx := KeptIndices(keys, KeyInWindow(start, end));
      && |r| == |idx|
      && (forall j :: 0 <= j < |r| ==> IsNumeric(keys[idx[j]]) && r[j] == DecimalValue(keys[idx[j]]))
      && (forall j :: 0 <= j < |r| ==> start <= r[j] <= end)
      && (forall i :: 0 <= i < |keys| ==> (IsNumeric(keys[i]) && start <= DecimalValue(keys[i]) <= end <==> i in idx))
  {
    var kept := Select(keys, KeyInWindow(start, end));
    SelectIsOrderedSubsequence(keys, KeyInWindow(start, end));
    seq(|kept|, j requires 0 <= j < |kept| => DecimalValue(kept[j]))
  }
}

=== FILE: receiver.dfy ===
/**
 * One bucket's receiver (`receiver` in the Go bridge) as a step function:
 * each arriving message is appended to the batch, then the stop condition
 * decides whether the batch is encoded, handed to the uploader and cleared.
 */
module Receiver {
  import opened Results
  import opened Bytes
  import opened Decimal
  import opened BatchFormat

  /** Per-message index overhead counted by the byte-size policy. */
  const SizeOfUint32InBytes: nat := 4

  const NanosPerSecond: nat := 1_000_000_000

  /** The three stop conditions; `Code` gives the integer constant the bridge uses. */
  datatype StopCondition = TimeInSeconds | SizeInBytes | SizeInLength

  function Code(c: StopCondition): int
  {
    match c
    case TimeInSeconds => 0
    case SizeInBytes => 1
    case SizeInLength => 2
  }

  /**
   * The configuration's `stopCondition` string. A name that is neither
   * "bytes", "length" nor "time" leaves Go's zero value, which is the time policy.
   */
  function StopConditionOf(name: string): (c: StopCondition)
    ensures c == SizeInBytes <==> name == "bytes"
    ensures c == SizeInLength <==> name == "length"
    ensures c == TimeInSeconds <==> name != "bytes" && name != "length"
    ensures Code(c) == 0 <==> c == TimeInSeconds
  {
    match name
    case "bytes" => SizeInBytes
    case "length" => SizeInLength
    case "time" => TimeInSeconds
    case _ => TimeInSeconds
  }

  /** Go's `Time.Unix()` on a clock reading in nanoseconds: rounds toward negative infinity. */
  function UnixSeconds(nanos: int): (sec: int)
    ensures sec * NanosPerSecond <= nanos < (sec + 1) * NanosPerSecond
  {
    nanos / NanosPerSecond
  }

  /** Go's integer division of a `Duration` by `time.Second`: truncates toward zero. */
  function TruncDiv(a: int, b: int): (q: int)
    requires b > 0
    ensures a >= 0 ==> q == a / b
    ensures a <= 0 ==> q <= 0
    ensures a < 0 ==> q * b >= a && (q - 1) * b < a
  {
    if a >= 0 then a / b else -((-a) / b)
  }

  /** The elapsed seconds as the bridge computes them: `startTime.Sub(time.Now())`, i.e. start minus now. */
  function ElapsedAsWritten(start: int, now: int): (r: int)
    ensures start <= now ==> r <= 0
    ensures start <= now && now - start < NanosPerSecond ==> r == 0
  {
    TruncDiv(start - now, NanosPerSecond)
  }

  /** The elapsed seconds the time policy is meant to measure: now minus start. */
  function ElapsedIntended(start: int, now: int): int
  {
    TruncDiv(now - start, NanosPerSecond)
  }

  datatype Message = Message(topic: string, payload: Bytes)

  /** A message together with the clock reading (nanoseconds) when the receiver handles it. */
  datatype Arrival = Arrival(msg: Message, now: int)

  /** What the byte-size policy counts for one message. */
  function Weight(m: Message): nat
  {
    |m.payload| + Utf8Length(m.topic) + SizeOfUint32InBytes
  }

  /** The receiver's three parallel buffers. */
  datatype Batch = Batch(payloads: seq<Bytes>, times: seq<int>, topics: seq<string>)
  {
    predicate Valid()
    {
      |times| == |payloads| && |topics| == |payloads|
    }

    function Count(): nat
    {
      |payloads|
    }

    /** Appends one message, stamped with the given second, to all three buffers. */
    function Add(m: Message, second: int): Batch
    {
      Batch(payloads + [m.payload], times + [second], topics + [m.topic])
    }

    function Join(other: Batch): Batch
    {
      Batch(payloads + other.payloads, times + other.times, topics + other.topics)
    }
  }

  const EmptyBatch: Batch := Batch([], [], [])

  datatype Config = Config(bucket: string, stop: StopCondition, maxSize: int, marshal: Marshal)

  /**
   * The receiver's state: buffers, the policy counter, the start of the time
   * window (nanoseconds), and the two Prometheus counters.
   */
  datatype State = State(batch: Batch, size: int, start: int, messages: nat, objects: nat)

  /** The state right after the receiver starts at clock reading `now`. */
  function Initial(now: int): State
  {
    State(EmptyBatch, 0, now, 0, 0)
  }

  /** The request handed to the uploader. Its outcome is not observed by the receiver. */
  datatype PutRequest = PutRequest(bucket: string, key: string, body: Bytes, metadata: map<string, string>)

  /** One flush: the batch handed to the encoder and the Unix second that names its object. */
  datatype Flushed = Flushed(batch: Batch, second: int)

  datatype StepResult = StepResult(state: State, flushed: Option<Flushed>)

  /**
   * `uploadToS3`'s request: the object key is the decimal flush second and the
   * `mqtt-header-size` metadata is the decimal header length, so that a reader
   * parsing them with `int` gets the numbers back.
   */
  function UploadRequest(bucket: string, second: int, e: Encoded): (p: PutRequest)
    ensures p.bucket == bucket && p.body == e.content
    ensures p.metadata.Keys == {HeaderSizeKey}
    ensures IsNumeric(p.metadata[HeaderSizeKey]) && DecimalValue(p.metadata[HeaderSizeKey]) == e.headerSize
    ensures IsNumeric(p.key) <==> second >= 0
    ensures second >= 0 ==> DecimalValue(p.key) == second
  {
    DecimalRoundTrip(e.headerSize);
    IntDecimalRoundTrip(second);
    PutRequest(bucket, IntToDecimal(second), e.content, map[HeaderSizeKey := NatToDecimal(e.headerSize)])
  }

  /**
   * What a flush uploads: the encoded batch under the key of its second. The
   * header length in the metadata splits the body into the marshalled index
   * and the payloads laid end to end.
   */
  function FlushRequest(cfg: Config, f: Flushed): (p: PutRequest)
    requires f.batch.Valid()
    ensures p.bucket == cfg.bucket && p.metadata.Keys == {HeaderSizeKey}
    ensures IsNumeric(p.metadata[HeaderSizeKey])
    ensures var h := DecimalValue(p.metadata[HeaderSizeKey]);
      && h <= |p.body|
      && p.body[..h] == cfg.marshal(BatchTiles(f.batch.payloads, f.batch.times, f.batch.topics))
      && p.body[h..] == Concat(f.batch.payloads)
    ensures f.second >= 0 ==> IsNumeric(p.key) && DecimalValue(p.key) == f.second
  {
    UploadRequest(cfg.bucket, f.second, Encode(f.batch.payloads, f.batch.times, f.batch.topics, cfg.marshal))
  }

  /** Hands the batch to the uploader, counts the object and clears the buffers. */
  function FlushNow(cfg: Config, s: State, now: int): (r: StepResult)
    ensures r.flushed.Some? && r.flushed.value.batch == s.batch
    ensures var sec := r.flushed.value.second; sec * NanosPerSecond <= now < (sec + 1) * NanosPerSecond
    ensures r.state.batch == EmptyBatch && r.state.objects == s.objects + 1
    ensures r.state.size == s.size && r.state.start == s.start && r.state.messages == s.messages
  {
    StepResult(s.(batch := EmptyBatch, objects := s.objects + 1), Some(Flushed(s.batch, UnixSeconds(now))))
  }

  /**
   * One iteration of the receiver loop, with the time policy's elapsed
   * seconds supplied by the caller. The message is appended to all three
   * buffers before the stop condition is looked at.
   */
  function Advance(cfg: Config, s: State, a: Arrival, elapsed: int): (r: StepResult)
    requires s.batch.Valid()
    ensures r.state.batch.Valid()
    ensures r.state.messages == s.messages + 1
    ensures r.flushed.Some? ==>
      && r.flushed.value == Flushed(s.batch.Add(a.msg, UnixSeconds(a.now)), UnixSeconds(a.now))
      && r.state.batch == EmptyBatch
      && r.state.objects == s.objects + 1
    ensures r.flushed.None? ==> r.state.batch == s.batch.Add(a.msg, UnixSeconds(a.now)) && r.state.objects == s.objects
    ensures cfg.stop == SizeInLength ==>
      && (r.flushed.Some? <==> s.size + 1 >= cfg.maxSize)
      && r.state.size == (if r.flushed.Some? then 0 else s.size + 1)
      && r.state.start == s.start
    ensures cfg.stop == SizeInBytes ==>
      && (r.flushed.Some? <==> s.size + Weight(a.msg) >= cfg.maxSize)
      && r.state.size == (if r.flushed.Some? then 0 else s.size + Weight(a.msg))
      && r.state.start == s.start
    ensures cfg.stop == TimeInSeconds ==>
      && (r.flushed.Some? <==> elapsed >= cfg.maxSize)
      && r.state.size == s.size
      && r.state.start == (if r.flushed.Some? then a.now else s.start)
  {
    var s' := s.(batch := s.batch.Add(a.msg, UnixSeconds(a.now)), messages := s.messages + 1);
    match cfg.stop
    case SizeInLength =>
      var size := s.size + 1;
      if size >= cfg.maxSize then FlushNow(cfg, s'.(size := 0), a.now)
      else StepResult(s'.(size := size), None)
    case SizeInBytes =>
      var size := s.size + |a.msg.payload| + Utf8Length(a.msg.topic) + SizeOfUint32InBytes;
      if size >= cfg.maxSize then FlushNow(cfg, s'.(size := 0), a.now)
      else StepResult(s'.(size := size), None)
    case TimeInSeconds =>
      if elapsed >= cfg.maxSize then FlushNow(cfg, s'.(start := a.now), a.now)
      else StepResult(s', None)
  }

  /**
   * The receiver loop body as written: the time policy compares start minus
   * now against the threshold, so while the clock does not run backwards a
   * positive threshold is never reached.
   */
  function Step(cfg: Config, s: State, a: Arrival): (r: StepResult)
    requires s.batch.Valid()
    ensures r.state.batch.Valid()
    ensures cfg.stop == TimeInSeconds ==> (r.flushed.Some? <==> TruncDiv(s.start - a.now, NanosPerSecond) >= cfg.maxSize)
    ensures cfg.stop == TimeInSeconds && s.start <= a.now && cfg.maxSize >= 1 ==> r.flushed.None?
  {
    Advance(cfg, s, a, ElapsedAsWritten(s.start, a.now))
  }

  /**
   * The receiver loop body with the time policy measuring now minus start:
   * it flushes exactly when at least `maxSize` whole seconds have passed
   * since the window started.
   */
  function StepIntended(cfg: Config, s: State, a: Arrival): (r: StepResult)
    requires s.batch.Valid()
    ensures r.state.batch.Valid()
    ensures cfg.stop == TimeInSeconds && s.start <= a.now ==>
      (r.flushed.Some? <==> a.now - s.start >= cfg.maxSize * NanosPerSecond)
    ensures cfg.stop == TimeInSeconds && r.flushed.Some? ==> r.state.start == a.now && r.state.batch == EmptyBatch
  {
    var elapsed := ElapsedIntended(s.start, a.now);
    var r := Advance(cfg, s, a, elapsed);
    assert cfg.stop == TimeInSeconds ==> (r.flushed.Some? <==> elapsed >= cfg.maxSize);
    ElapsedReachesThreshold(a.now - s.start, cfg.maxSize);
    r
  }

  lemma ElapsedReachesThreshold(d: int, t: int)
    ensures d >= 0 ==> (TruncDiv(d, NanosPerSecond) >= t <==> d >= t * NanosPerSecond)
  {
  }

  datatype RunResult = RunResult(state: State, flushes: seq<Flushed>)

  /** The receiver consuming a sequence of arrivals, collecting every flush in order. */
  function Run(cfg: Config, s: State, arrivals: seq<Arrival>): (r: RunResult)
    requires s.batch.Valid()
    ensures r.state.batch.Valid()
    ensures r.state.messages == s.messages + |arrivals|
    ensures r.state.objects == s.objects + |r.flushes|
    ensures forall i :: 0 <= i < |r.flushes| ==> r.flushes[i].batch.Valid() && r.flushes[i].batch.Count() >= 1
    decreases |arrivals|
  {
    if |arrivals| == 0 then RunResult(s, [])
    else
      var prior := Run(cfg, s, arrivals[..|arrivals| - 1]);
      var last := Step(cfg, prior.state, arrivals[|arrivals| - 1]);
      RunResult(last.state, prior.flushes + (if last.flushed.Some? then [last.flushed.value] else []))
  }

  /** The receiver loop with the corrected time policy. */
  function RunIntended(cfg: Config, s: State, arrivals: seq<Arrival>): (r: RunResult)
    requires s.batch.Valid()
    ensures r.state.batch.Valid()
    ensures r.state.messages == s.messages + |arrivals|
    ensures r.state.objects == s.objects + |r.flushes|
    ensures forall i :: 0 <= i < |r.flushes| ==> r.flushes[i].batch.Valid() && r.flushes[i].batch.Count() >= 1
    decreases |arrivals|
  {
    if |arrivals| == 0 then RunResult(s, [])
    else
      var prior := RunIntended(cfg, s, arrivals[..|arrivals| - 1]);
      var last := StepIntended(cfg, prior.state, arrivals[|arrivals| - 1]);
      RunResult(last.state, prior.flushes + (if last.flushed.Some? then [last.flushed.value] else []))
  }

  /** The correction only touches the time policy: under the other two the loops agree. */
  lemma {:induction false} RunIntendedAgreesOffTime(cfg: Config, s: State, arrivals: seq<Arrival>)
    requires cfg.stop != TimeInSeconds && s.batch.Valid()
    ensures RunIntended(cfg, s, arrivals) == Run(cfg, s, arrivals)
  {
    if |arrivals| > 0 {
      RunIntendedAgreesOffTime(cfg, s, arrivals[..|arrivals| - 1]);
    }
  }

  /**
   * Under the corrected time policy, with clock readings that never run
   * backwards, the window start only moves forward to an arrival, and after
   * each message either a flush has just opened a new window at that message
   * or fewer than `maxSize` seconds have passed since the window opened.
   */
  lemma {:induction false} TimePolicyIntendedKeepsWindow(cfg: Config, s: State, arrivals: seq<Arrival>)
    requires cfg.stop == TimeInSeconds && s.batch.Valid() && |arrivals| >= 1
    requires forall i :: 0 <= i < |arrivals| ==> s.start <= arrivals[i].now
    requires forall i, j :: 0 <= i < j < |arrivals| ==> arrivals[i].now <= arrivals[j].now
    ensures var r := RunIntended(cfg, s, arrivals);
      var now := arrivals[|arrivals| - 1].now;
      && s.start <= r.state.start <= now
      && ((r.state.start == now && r.state.batch == EmptyBatch) || now - r.state.start < cfg.maxSize * NanosPerSecond)
  {
    var init := arrivals[..|arrivals| - 1];
    var a := arrivals[|arrivals| - 1];
    var prior := RunIntended(cfg, s, init);
    if |init| > 0 {
      TimePolicyIntendedKeepsWindow(cfg, s, init);
      assert init[|init| - 1].now <= a.now;
    }
    assert s.start <= prior.state.start <= a.now;
  }

  /** What the receiver records for a sequence of arrivals, in arrival order. */
  function Incoming(arrivals: seq<Arrival>): (b: Batch)
    ensures b.Valid() && b.Count() == |arrivals|
  {
    if |arrivals| == 0 then EmptyBatch
    else
      var a := arrivals[|arrivals| - 1];
      Incoming(arrivals[..|arrivals| - 1]).Add(a.msg, UnixSeconds(a.now))
  }

  /** The flushed batches laid end to end. */
  function Joined(fs: seq<Flushed>): Batch
  {
    if |fs| == 0 then EmptyBatch else Joined(fs[..|fs| - 1]).Join(fs[|fs| - 1].batch)
  }

  /** The byte-size policy's measure of a sequence of arrivals. */
  function ArrivalsWeight(arrivals: seq<Arrival>): nat
  {
    if |arrivals| == 0 then 0
    else ArrivalsWeight(arrivals[..|arrivals| - 1]) + Weight(arrivals[|arrivals| - 1].msg)
  }

  /**
   * No message is lost, duplicated or reordered: the flushed batches followed
   * by what is still buffered are the initial buffer followed by the arrivals.
   */
  lemma {:induction false} RunPreservesArrivalOrder(cfg: Config, s: State, arrivals: seq<Arrival>)
    requires s.batch.Valid()
    ensures var r := Run(cfg, s, arrivals);
      Joined(r.flushes).Join(r.state.batch) == s.batch.Join(Incoming(arrivals))
  {
    if |arrivals| > 0 {
      var init := arrivals[..|arrivals| - 1];
      var a := arrivals[|arrivals| - 1];
      RunPreservesArrivalOrder(cfg, s, init);
      var prior := Run(cfg, s, init);
      var last := Step(cfg, prior.state, a);
      var added := prior.state.batch.Add(a.msg, UnixSeconds(a.now));
      assert Incoming(arrivals) == Incoming(init).Add(a.msg, UnixSeconds(a.now));
      if last.flushed.Some? {
        var fs := prior.flushes + [last.flushed.value];
        assert fs[..|fs| - 1] == prior.flushes;
        assert Joined(fs) == Joined(prior.flushes).Join(added);
        assert last.state.batch == EmptyBatch;
        JoinAdd(Joined(prior.flushes), prior.state.batch, a.msg, UnixSeconds(a.now));
        JoinAdd(s.batch, Incoming(init), a.msg, UnixSeconds(a.now));
      } else {
        assert prior.flushes + [] == prior.flushes;
        assert last.state.batch == added;
        JoinAdd(Joined(prior.flushes), prior.state.batch, a.msg, UnixSeconds(a.now));
        JoinAdd(s.batch, Incoming(init), a.msg, UnixSeconds(a.now));
      }
    }
  }

  lemma JoinAdd(x: Batch, y: Batch, m: Message, second: int)
    ensures x.Join(y.Add(m, second)) == x.Join(y).Add(m, second)
  {
    assert x.payloads + (y.payloads + [m.payload]) == (x.payloads + y.payloads) + [m.payload];
    assert x.times + (y.times + [second]) == (x.times + y.times) + [second];
    assert x.topics + (y.topics + [m.topic]) == (x.topics + y.topics) + [m.topic];
  }

  /**
   * Under the count policy with threshold k >= 1, started with fewer than k
   * buffered messages counted by `size`: every flushed batch holds exactly k
   * messages, fewer than k stay buffered, and nothing is lost in the count.
   */
  lemma {:induction false} LengthPolicyFlushesEveryK(cfg: Config, s: State, arrivals: seq<Arrival>)
    requires cfg.stop == SizeInLength && cfg.maxSize >= 1
    requires s.batch.Valid() && s.size == s.batch.Count() < cfg.maxSize
    ensures CountInvariant(cfg.maxSize, Run(cfg, s, arrivals), s.batch.Count() + |arrivals|)
  {
    if |arrivals| > 0 {
      var init := arrivals[..|arrivals| - 1];
      LengthPolicyFlushesEveryK(cfg, s, init);
      var prior := Run(cfg, s, init);
      var last := Step(cfg, prior.state, arrivals[|arrivals| - 1]);
      LengthPolicyStep(cfg, prior.state, arrivals[|arrivals| - 1]);
      CountInvariantStep(cfg.maxSize, prior, last, s.batch.Count() + |init|);
    }
  }

  /** One count-policy step: either the k-th message flushes a batch of k, or the buffer grows by one. */
  lemma LengthPolicyStep(cfg: Config, s: State, a: Arrival)
    requires cfg.stop == SizeInLength && cfg.maxSize >= 1
    requires s.batch.Valid() && s.size == s.batch.Count() < cfg.maxSize
    ensures var r := Step(cfg, s, a);
      && r.state.size == r.state.batch.Count() < cfg.maxSize
      && (r.flushed.Some? ==> r.flushed.value.batch.Count() == s.batch.Count() + 1 == cfg.maxSize && r.state.batch.Count() == 0)
      && (r.flushed.None? ==> r.state.batch.Count() == s.batch.Count() + 1)
  {
  }

  /**
   * The count policy's invariant after `n` messages: the counter equals the
   * buffered count, which is below k; every flushed batch holds k messages;
   * and the flushed and buffered messages add up to n.
   */
  predicate CountInvariant(k: int, r: RunResult, n: int)
  {
    && r.state.size == r.state.batch.Count() < k
    && (forall i :: 0 <= i < |r.flushes| ==> r.flushes[i].batch.Count() == k)
    && |r.flushes| * k + r.state.batch.Count() == n
  }

  lemma CountInvariantStep(k: int, prior: RunResult, last: StepResult, n: int)
    requires CountInvariant(k, prior, n)
    requires last.state.size == last.state.batch.Count() < k
    requires last.flushed.Some? ==> last.flushed.value.batch.Count() == prior.state.batch.Count() + 1 == k && last.state.batch.Count() == 0
    requires last.flushed.None? ==> last.state.batch.Count() == prior.state.batch.Count() + 1
    ensures CountInvariant(k, RunResult(last.state, prior.flushes + (if last.flushed.Some? then [last.flushed.value] else [])), n + 1)
  {
    if last.flushed.Some? {
      var fs := prior.flushes + [last.flushed.value];
      assert forall i :: 0 <= i < |prior.flushes| ==> fs[i] == prior.flushes[i];
      assert fs[|prior.flushes|] == last.flushed.value;
      assert (|prior.flushes| + 1) * k == |prior.flushes| * k + k;
    } else {
      assert prior.flushes + [] == prior.flushes;
    }
  }

  /**
   * From a fresh window, the count policy has flushed `n / k` batches after
   * n messages and holds the remaining `n % k`.
   */
  lemma LengthPolicyFromEmptyWindow(cfg: Config, now: int, arrivals: seq<Arrival>)
    requires cfg.stop == SizeInLength && cfg.maxSize >= 1
    ensures var r := Run(cfg, Initial(now), arrivals);
      && |r.flushes| == |arrivals| / cfg.maxSize
      && r.state.batch.Count() == |arrivals| % cfg.maxSize
  {
    LengthPolicyFlushesEveryK(cfg, Initial(now), arrivals);
    var r := Run(cfg, Initial(now), arrivals);
    QuotientUnique(|arrivals|, cfg.maxSize, |r.flushes|, r.state.batch.Count());
  }

  lemma QuotientUnique(n: nat, k: nat, q: nat, m: nat)
    requires k >= 1 && m < k && q * k + m == n
    ensures q == n / k && m == n % k
  {
    var q', m' := n / k, n % k;
    if q < q' {
      MulMonotone(q + 1, q', k);
    } else if q' < q {
      MulMonotone(q' + 1, q, k);
    }
  }

  lemma {:induction false} MulMonotone(a: nat, b: nat, k: nat)
    requires a <= b
    ensures a * k <= b * k
    decreases b - a
  {
    if a < b {
      MulMonotone(a + 1, b, k);
    }
  }

  /**
   * Under the byte-size policy, as long as the counter plus the weight of the
   * arrivals stays below the threshold nothing is flushed and the counter
   * carries the cumulative weight.
   */
  lemma {:induction false} BytesPolicyBelowThreshold(cfg: Config, s: State, arrivals: seq<Arrival>)
    requires cfg.stop == SizeInBytes && s.batch.Valid()
    requires s.size + ArrivalsWeight(arrivals) < cfg.maxSize
    ensures var r := Run(cfg, s, arrivals);
      && r.flushes == []
      && r.state.size == s.size + ArrivalsWeight(arrivals)
      && r.state.batch == s.batch.Join(Incoming(arrivals))
  {
    if |arrivals| > 0 {
      var init := arrivals[..|arrivals| - 1];
      BytesPolicyBelowThreshold(cfg, s, init);
    }
  }

  /**
   * Under the byte-size policy, the flush fires on the first message whose
   * cumulative weight reaches the threshold, and carries every message since
   * the previous flush.
   */
  lemma BytesPolicyFlushesOnCrossing(cfg: Config, s: State, arrivals: seq<Arrival>)
    requires cfg.stop == SizeInBytes && s.batch.Valid() && |arrivals| >= 1
    requires s.size + ArrivalsWeight(arrivals[..|arrivals| - 1]) < cfg.maxSize <= s.size + ArrivalsWeight(arrivals)
    ensures var r := Run(cfg, s, arrivals);
      && |r.flushes| == 1
      && r.flushes[0].batch == s.batch.Join(Incoming(arrivals))
      && r.state.batch == EmptyBatch
      && r.state.size == 0
  {
    BytesPolicyBelowThreshold(cfg, s, arrivals[..|arrivals| - 1]);
  }

  /**
   * The time policy as written never flushes with a positive threshold while
   * the clock does not run backwards: every message stays buffered.
   */
  lemma {:induction false} TimePolicyAsWrittenNeverFlushes(cfg: Config, s: State, arrivals: seq<Arrival>)
    requires cfg.stop == TimeInSeconds && cfg.maxSize >= 1 && s.batch.Valid()
    requires forall i :: 0 <= i < |arrivals| ==> s.start <= arrivals[i].now
    ensures var r := Run(cfg, s, arrivals);
      && r.flushes == []
      && r.state.start == s.start
      && r.state.batch == s.batch.Join(Incoming(arrivals))
  {
    if |arrivals| > 0 {
      var init := arrivals[..|arrivals| - 1];
      TimePolicyAsWrittenNeverFlushes(cfg, s, init);
      assert s.start <= arrivals[|arrivals| - 1].now;
    }
  }

  /**
   * A concrete window: threshold 60 seconds, one message an hour after the
   * window opened. The loop body as written keeps buffering; the intended one flushes.
   */
  lemma TimePolicyHourLateExample(bucket: string, marshal: Marshal)
    ensures var cfg := Config(bucket, TimeInSeconds, 60, marshal);
      var a := Arrival(Message("sensors/a", [1]), 3600 * NanosPerSecond);
      && Step(cfg, Initial(0), a).flushed.None?
      && StepIntended(cfg, Initial(0), a).flushed.Some?
  {
  }

  /**
   * Count policy with threshold 3 and messages "AA", "B", "CCC" on one topic:
   * one object whose index has offsets 0, 2, 3, whose body is the six payload
   * bytes in order, and an empty buffer afterwards.
   */
  lemma CountPolicyScenario(bucket: string, marshal: Marshal, t1: int, t2: int, t3: int)
    ensures
      var cfg := Config(bucket, SizeInLength, 3, marshal);
      var arrivals := [Arrival(Message("sensors/a", [65, 65]), t1),
                       Arrival(Message("sensors/a", [66]), t2),
                       Arrival(Message("sensors/a", [67, 67, 67]), t3)];
      var r := Run(cfg, Initial(0), arrivals);
      && |r.flushes| == 1
      && r.state.batch == EmptyBatch
      && var b := r.flushes[0].batch;
         && b.payloads == [[65, 65], [66], [67, 67, 67]]
         && Concat(b.payloads) == [65, 65, 66, 67, 67, 67]
         && var tiles := BatchTiles(b.payloads, b.times, b.topics);
            && tiles[0].offset == 0 && tiles[1].offset == 2 && tiles[2].offset == 3
            && tiles[1].topic == "sensors/a"
  {
    var cfg := Config(bucket, SizeInLength, 3, marshal);
    var arrivals := [Arrival(Message("sensors/a", [65, 65]), t1),
                     Arrival(Message("sensors/a", [66]), t2),
                     Arrival(Message("sensors/a", [67, 67, 67]), t3)];
    OneFlushOfAll(cfg, arrivals);
    var b := Run(cfg, Initial(0), arrivals).flushes[0].batch;
    IncomingOfThree(arrivals);
    ThreePayloadsLayout(b.payloads, b.times, b.topics);
  }

  /** With threshold k, exactly k messages from a fresh window make one flush of all of them. */
  lemma OneFlushOfAll(cfg: Config, arrivals: seq<Arrival>)
    requires cfg.stop == SizeInLength && cfg.maxSize == |arrivals| >= 1
    ensures var r := Run(cfg, Initial(0), arrivals);
      && |r.flushes| == 1
      && r.state.batch == EmptyBatch
      && r.flushes[0].batch == Incoming(arrivals)
  {
    var r := Run(cfg, Initial(0), arrivals);
    OneFlushCount(cfg, arrivals);
    RunPreservesArrivalOrder(cfg, Initial(0), arrivals);
    SingleFlushHoldsAll(r.flushes, r.state.batch, Incoming(arrivals));
  }

  lemma SingleFlushHoldsAll(fs: seq<Flushed>, rest: Batch, all: Batch)
    requires |fs| == 1 && rest == EmptyBatch
    requires Joined(fs).Join(rest) == EmptyBatch.Join(all)
    ensures fs[0].batch == all
  {
    var b := fs[0].batch;
    assert fs[..0] == [];
    assert Joined(fs) == EmptyBatch.Join(b);
    assert EmptyBatch.Join(b) == b && b.Join(EmptyBatch) == b;
    assert EmptyBatch.Join(all) == all;
  }

  lemma OneFlushCount(cfg: Config, arrivals: seq<Arrival>)
    requires cfg.stop == SizeInLength && cfg.maxSize == |arrivals| >= 1
    ensures var r := Run(cfg, Initial(0), arrivals);
      |r.flushes| == 1 && r.state.batch == EmptyBatch
  {
    LengthPolicyFlushesEveryK(cfg, Initial(0), arrivals);
    var r := Run(cfg, Initial(0), arrivals);
    SingleQuotient(|r.flushes|, cfg.maxSize, r.state.batch.Count());
  }

  lemma SingleQuotient(q: nat, k: nat, m: nat)
    requires m < k && q * k + m == k
    ensures q == 1 && m == 0
  {
    if q >= 2 {
      MulMonotone(2, q, k);
    }
  }

  /** The batch recorded for three arrivals. */
  lemma IncomingOfThree(arrivals: seq<Arrival>)
    requires |arrivals| == 3
    ensures var m := seq(3, i requires 0 <= i < 3 => arrivals[i].msg);
      Incoming(arrivals).payloads == [m[0].payload, m[1].payload, m[2].payload]
      && Incoming(arrivals).topics == [m[0].topic, m[1].topic, m[2].topic]
  {
    var a0, a1, a2 := arrivals[0], arrivals[1], arrivals[2];
    assert arrivals[..2][..1] == arrivals[..1] == [a0];
    assert arrivals[..1][..0] == [];
    var b1 := Incoming(arrivals[..1]);
    assert b1.payloads == [a0.msg.payload] && b1.topics == [a0.msg.topic];
    var b2 := Incoming(arrivals[..2]);
    assert b2 == b1.Add(a1.msg, UnixSeconds(a1.now));
    assert b2.payloads == [a0.msg.payload, a1.msg.payload] && b2.topics == [a0.msg.topic, a1.msg.topic];
    assert Incoming(arrivals) == b2.Add(a2.msg, UnixSeconds(a2.now));
  }

  lemma ThreePayloadsLayout(ps: seq<Bytes>, times: seq<int>, topics: seq<string>)
    requires ps == [[65, 65], [66], [67, 67, 67]] && |times| == 3
    requires topics == ["sensors/a", "sensors/a", "sensors/a"]
    ensures Concat(ps) == [65, 65, 66, 67, 67, 67]
    ensures var tiles := BatchTiles(ps, times, topics);
      && tiles[0].offset == 0 && tiles[1].offset == 2 && tiles[2].offset == 3
      && tiles[1].topic == "sensors/a"
  {
    assert ps[..2][..1] == ps[..1];
    assert ps[..1][..0] == [];
    assert Concat(ps[..1]) == [65, 65];
    assert Concat(ps[..2]) == [65, 65] + [66];
    assert Concat(ps) == [65, 65, 66] + [67, 67, 67];
  }
}

=== FILE: results.dfy ===
/** Failure-carrying values shared by the bridge and the reader models. */
module Results {

  /** A value that may be absent (a parser that may reject its input). */
  datatype Option<+T> = None | Some(value: T)

  /** A value or the error that prevented computing it (a Python exception, an HTTP error). */
  datatype Result<+T, +E> = Ok(value: T) | Err(error: E)
}

=== FILE: round_trip.dfy ===
/**
 * What the reader recovers from an object the bridge uploaded: the header
 * length from the metadata, the tiles, each message's size and bytes, and
 * whether its key falls in a time window.
 */
module RoundTrip {
  import opened Results
  import opened Bytes
  import opened Decimal
  import opened BatchFormat
  import opened Receiver
  import opened Opener
  import opened Selection

  /** Every tile but the last gets back the length of the payload it indexes. */
  lemma SizesRecoverPayloadLengths(payloads: seq<Bytes>, times: seq<int>, topics: seq<string>, lastSize: int)
    requires |payloads| <= |times| && |payloads| <= |topics|
    ensures var sized := AddSizes(BatchTiles(payloads, times, topics), lastSize);
      forall i :: 0 <= i < |sized| - 1 ==> sized[i].size == |payloads[i]|
  {
    forall i | 0 <= i < |payloads| - 1 {
      NonLastSize(payloads, times, topics, lastSize, i);
    }
  }

  lemma NonLastSize(payloads: seq<Bytes>, times: seq<int>, topics: seq<string>, lastSize: int, i: nat)
    requires |payloads| <= |times| && |payloads| <= |topics| && i + 1 < |payloads|
    ensures AddSizes(BatchTiles(payloads, times, topics), lastSize)[i].size == |payloads[i]|
  {
    var tiles := BatchTiles(payloads, times, topics);
    assert tiles[i + 1].offset - tiles[i].offset == |payloads[i]|;
    assert AddSizes(tiles, lastSize)[i].size == tiles[i + 1].offset - tiles[i].offset;
  }

  /**
   * Opening an uploaded object with a parser that inverts the header
   * serialiser gives back the encoder's tiles and the header length.
   */
  lemma OpenUploadedObject(bucket: string, second: int, b: Batch, marshal: Marshal, parse: Parse, lastSize: int)
    requires b.Valid()
    requires var tiles := BatchTiles(b.payloads, b.times, b.topics);
      parse(marshal(tiles)) == Some(tiles) && |marshal(tiles)| >= 1
    ensures var e := Encode(b.payloads, b.times, b.topics, marshal);
      var put := UploadRequest(bucket, second, e);
      Open(put.body, put.metadata, parse, lastSize)
        == Ok(ObjectOpener(e.content, e.headerSize, AddSizes(BatchTiles(b.payloads, b.times, b.topics), lastSize)))
  {
    var tiles := BatchTiles(b.payloads, b.times, b.topics);
    var e := Encode(b.payloads, b.times, b.topics, marshal);
    var put := UploadRequest(bucket, second, e);
    assert DecimalValue(put.metadata[HeaderSizeKey]) == e.headerSize;
    assert RangeGet(e.content, 0, e.headerSize - 1) == Ok(e.content[..e.headerSize]);
  }

  /** The reader's tile for payload i: its size is the payload length, its offset the length of the payloads before it. */
  lemma TileOfPayload(payloads: seq<Bytes>, times: seq<int>, topics: seq<string>, lastSize: int, i: nat)
    requires |payloads| <= |times| && |payloads| <= |topics| && i < |payloads|
    requires lastSize == |payloads[|payloads| - 1]|
    ensures var t := AddSizes(BatchTiles(payloads, times, topics), lastSize)[i];
      t.size == |payloads[i]| && t.tile.offset == TotalLength(payloads[..i])
  {
    if i + 1 < |payloads| {
      NonLastSize(payloads, times, topics, lastSize, i);
    }
    TileOffsetsPack(payloads, times, topics);
  }

  lemma BodySlice(content: Bytes, h: nat, body: Bytes, a: nat, n: nat)
    requires h <= |content| && content[h..] == body && a + n <= |body|
    ensures content[h + a .. h + a + n] == body[a .. a + n]
  {
    assert content[h..][a .. a + n] == content[h + a .. h + a + n];
  }

  /**
   * Payload i of an encoded batch reads back exactly through its tile; the
   * reader as written also gets it right whenever the payload is non-empty.
   */
  lemma ReadBackPayload(payloads: seq<Bytes>, times: seq<int>, topics: seq<string>, marshal: Marshal, lastSize: int, i: nat)
    requires |payloads| <= |times| && |payloads| <= |topics| && i < |payloads|
    requires lastSize == |payloads[|payloads| - 1]|
    ensures var e := Encode(payloads, times, topics, marshal);
      var o := ObjectOpener(e.content, e.headerSize, AddSizes(BatchTiles(payloads, times, topics), lastSize));
      && o.tiles[i].size == |payloads[i]|
      && MessageByTileIntended(o, o.tiles[i]) == Ok(payloads[i])
      && (|payloads[i]| >= 1 ==> MessageByTile(o, o.tiles[i]) == Ok(payloads[i]))
  {
    var e := Encode(payloads, times, topics, marshal);
    var o := ObjectOpener(e.content, e.headerSize, AddSizes(BatchTiles(payloads, times, topics), lastSize));
    TileOfPayload(payloads, times, topics, lastSize, i);
    ReadsPayload(o, payloads, i);
  }

  /**
   * When the body after the header is the concatenated payloads and tile i
   * has payload i's length and starting point, tile i reads back payload i.
   */
  lemma ReadsPayload(o: ObjectOpener, payloads: seq<Bytes>, i: nat)
    requires i < |payloads| && i < |o.tiles|
    requires o.headerSize <= |o.content| && o.content[o.headerSize..] == Concat(payloads)
    requires o.tiles[i].size == |payloads[i]| && o.tiles[i].tile.offset == TotalLength(payloads[..i])
    ensures MessageByTileIntended(o, o.tiles[i]) == Ok(payloads[i])
    ensures |payloads[i]| >= 1 ==> MessageByTile(o, o.tiles[i]) == Ok(payloads[i])
  {
    ConcatElement(payloads, i);
    ConcatLength(payloads);
    BodySlice(o.content, o.headerSize, Concat(payloads), TotalLength(payloads[..i]), |payloads[i]|);
    ReadsItsSlice(o, o.tiles[i], payloads[i]);
  }

  lemma ReadsItsSlice(o: ObjectOpener, t: SizedTile, p: Bytes)
    requires t.size == |p|
    requires o.headerSize + t.tile.offset + |p| <= |o.content|
    requires o.content[o.headerSize + t.tile.offset .. o.headerSize + t.tile.offset + |p|] == p
    ensures MessageByTileIntended(o, t) == Ok(p)
    ensures |p| >= 1 ==> MessageByTile(o, t) == Ok(p)
  {
  }

  /**
   * The reader recovers a flushed batch: one tile per message with its
   * arrival second and topic, and every message's bytes, in arrival order.
   */
  lemma UploadedBatchReadsBack(bucket: string, second: int, b: Batch, marshal: Marshal, parse: Parse)
    requires b.Valid() && b.Count() >= 1
    requires var tiles := BatchTiles(b.payloads, b.times, b.topics);
      parse(marshal(tiles)) == Some(tiles) && |marshal(tiles)| >= 1
    ensures var put := UploadRequest(bucket, second, Encode(b.payloads, b.times, b.topics, marshal));
      var r := Open(put.body, put.metadata, parse, |b.payloads[b.Count() - 1]|);
      && r.Ok?
      && |r.value.tiles| == b.Count()
      && (forall i :: 0 <= i < b.Count() ==>
            && r.value.tiles[i].tile.unixTime == b.times[i]
            && r.value.tiles[i].tile.topic == b.topics[i]
            && MessageByTileIntended(r.value, r.value.tiles[i]) == Ok(b.payloads[i])
            && (|b.payloads[i]| >= 1 ==> MessageByTile(r.value, r.value.tiles[i]) == Ok(b.payloads[i])))
      && TimeRange(r.value) == Ok((b.times[0], b.times[b.Count() - 1]))
  {
    var lastSize := |b.payloads[b.Count() - 1]|;
    var e := Encode(b.payloads, b.times, b.topics, marshal);
    var o := ObjectOpener(e.content, e.headerSize, AddSizes(BatchTiles(b.payloads, b.times, b.topics), lastSize));
    OpenUploadedObject(bucket, second, b, marshal, parse, lastSize);
    forall i | 0 <= i < b.Count()
      ensures MessageByTileIntended(o, o.tiles[i]) == Ok(b.payloads[i])
      ensures |b.payloads[i]| >= 1 ==> MessageByTile(o, o.tiles[i]) == Ok(b.payloads[i])
    {
      ReadBackPayload(b.payloads, b.times, b.topics, marshal, lastSize, i);
    }
    TileFields(b.payloads, b.times, b.topics, lastSize);
  }

  lemma TileFields(payloads: seq<Bytes>, times: seq<int>, topics: seq<string>, lastSize: int)
    requires |payloads| == |times| == |topics|
    ensures var sized := AddSizes(BatchTiles(payloads, times, topics), lastSize);
      forall i :: 0 <= i < |sized| ==> sized[i].tile.unixTime == times[i] && sized[i].tile.topic == topics[i]
  {
  }

  /**
   * An empty message inside a batch reads back, through the reader as
   * written, as the whole object instead of as no bytes.
   */
  lemma EmptyPayloadReadsWholeObject(payloads: seq<Bytes>, times: seq<int>, topics: seq<string>, marshal: Marshal, lastSize: int, i: nat)
    requires |payloads| <= |times| && |payloads| <= |topics| && i < |payloads| - 1
    requires payloads[i] == []
    ensures var e := Encode(payloads, times, topics, marshal);
      var o := ObjectOpener(e.content, e.headerSize, AddSizes(BatchTiles(payloads, times, topics), lastSize));
      && MessageByTile(o, o.tiles[i]) == Ok(e.content)
      && (|e.content| > 0 ==> MessageByTile(o, o.tiles[i]) != Ok(payloads[i]))
  {
    SizesRecoverPayloadLengths(payloads, times, topics, lastSize);
  }

  /** A concrete batch: an empty message followed by a one-byte message. */
  lemma EmptyPayloadExample(marshal: Marshal)
    ensures var ps: seq<Bytes> := [[], [7]];
      var e := Encode(ps, [0, 0], ["a", "a"], marshal);
      var o := ObjectOpener(e.content, e.headerSize, AddSizes(BatchTiles(ps, [0, 0], ["a", "a"]), 1));
      && MessageByTile(o, o.tiles[0]) != Ok([])
      && MessageByTileIntended(o, o.tiles[0]) == Ok([])
  {
    var ps: seq<Bytes> := [[], [7]];
    EmptyPayloadReadsWholeObject(ps, [0, 0], ["a", "a"], marshal, 1, 0);
    ReadBackPayload(ps, [0, 0], ["a", "a"], marshal, 1, 0);
    ConcatLength(ps);
    assert ps[..1] == [[]];
    assert ps[..1][..0] == [];
    assert TotalLength(ps) == 1;
  }

  /**
   * Querying by topic an object that holds a header and then non-empty
   * messages laid end to end, indexed by the encoder's tiles, returns exactly
   * the messages published on that topic, in arrival order.
   */
  lemma MessagesByTopicReadsBack(o: ObjectOpener, payloads: seq<Bytes>, times: seq<int>, topics: seq<string>, topic: string)
    requires |payloads| == |times| == |topics| >= 1
    requires forall i :: 0 <= i < |payloads| ==> |payloads[i]| >= 1
    requires o.headerSize <= |o.content| && o.content[o.headerSize..] == Concat(payloads)
    requires o.tiles == AddSizes(BatchTiles(payloads, times, topics), |payloads[|payloads| - 1]|)
    ensures var idx := KeptIndices(o.tiles, HasTopic(topic));
      var r := MessagesByTopic(o, topic);
      && r.Ok?
      && |r.value| == |idx|
      && (forall j :: 0 <= j < |idx| ==> r.value[j] == payloads[idx[j]])
      && (forall i :: 0 <= i < |payloads| ==> (topics[i] == topic <==> i in idx))
  {
    EncodedTilesReadBack(o, payloads, times, topics);
    TopicQuery(o, payloads, topics, topic);
  }

  /**
   * Every tile of an object holding a header and then the non-empty messages
   * laid end to end carries its topic and reads back its message.
   */
  lemma EncodedTilesReadBack(o: ObjectOpener, payloads: seq<Bytes>, times: seq<int>, topics: seq<string>)
    requires |payloads| == |times| == |topics| >= 1
    requires forall i :: 0 <= i < |payloads| ==> |payloads[i]| >= 1
    requires o.headerSize <= |o.content| && o.content[o.headerSize..] == Concat(payloads)
    requires o.tiles == AddSizes(BatchTiles(payloads, times, topics), |payloads[|payloads| - 1]|)
    ensures |o.tiles| == |payloads|
    ensures forall k :: 0 <= k < |o.tiles| ==> o.tiles[k].tile.topic == topics[k] && MessageByTile(o, o.tiles[k]) == Ok(payloads[k])
  {
    var lastSize := |payloads[|payloads| - 1]|;
    TileFields(payloads, times, topics, lastSize);
    forall k | 0 <= k < |payloads|
      ensures MessageByTile(o, o.tiles[k]) == Ok(payloads[k])
    {
      TileReadsBack(o, payloads, times, topics, k);
    }
  }

  /** Tile k of such an object reads back message k. */
  lemma TileReadsBack(o: ObjectOpener, payloads: seq<Bytes>, times: seq<int>, topics: seq<string>, k: nat)
    requires |payloads| == |times| == |topics| && k < |payloads| && |payloads[k]| >= 1
    requires o.headerSize <= |o.content| && o.content[o.headerSize..] == Concat(payloads)
    requires o.tiles == AddSizes(BatchTiles(payloads, times, topics), |payloads[|payloads| - 1]|)
    ensures MessageByTile(o, o.tiles[k]) == Ok(payloads[k])
  {
    TileOfPayload(payloads, times, topics, |payloads[|payloads| - 1]|, k);
    ReadsPayload(o, payloads, k);
  }

  /** A topic query on an object whose every tile reads back its message selects those messages. */
  lemma TopicQuery(o: ObjectOpener, payloads: seq<Bytes>, topics: seq<string>, topic: string)
    requires |o.tiles| == |payloads| == |topics|
    requires forall k :: 0 <= k < |o.tiles| ==> o.tiles[k].tile.topic == topics[k] && MessageByTile(o, o.tiles[k]) == Ok(payloads[k])
    ensures var idx := KeptIndices(o.tiles, HasTopic(topic));
      var r := MessagesByTopic(o, topic);
      && r.Ok?
      && |r.value| == |idx|
      && (forall j :: 0 <= j < |idx| ==> r.value[j] == payloads[idx[j]])
      && (forall i :: 0 <= i < |payloads| ==> (topics[i] == topic <==> i in idx))
  {
    var idx := KeptIndices(o.tiles, HasTopic(topic));
    var sel := TilesWithTopic(o.tiles, topic);
    TopicFilterExact(o.tiles, topic);
    assert forall j :: 0 <= j < |sel| ==> MessageByTile(o, sel[j]) == Ok(payloads[idx[j]]);
  }

  /**
   * The bucket opener lists the object of a flush at second t exactly when
   * t is not negative and lies in the requested window.
   */
  lemma FlushKeySelected(second: int, start: int, end: int)
    ensures KeysInWindow([IntToDecimal(second)], start, end)
      == (if 0 <= second && start <= second <= end then [second] else [])
  {
    IntDecimalRoundTrip(second);
    var r := KeysInWindow([IntToDecimal(second)], start, end);
    if 0 <= second && start <= second <= end {
      assert 0 in Selection.KeptIndices([IntToDecimal(second)], KeyInWindow(start, end));
    }
  }
}

=== FILE: selection.dfy ===
/** Python list comprehensions with a condition: keep the matching elements, in order. */
module Selection {

  /** `[x for x in xs if keep(x)]` */
  function Select<T>(xs: seq<T>, keep: T -> bool): (r: seq<T>)
    ensures |r| <= |xs|
    ensures forall j :: 0 <= j < |r| ==> keep(r[j])
  {
    if |xs| == 0 then []
    else Select(xs[..|xs| - 1], keep) + (if keep(xs[|xs| - 1]) then [xs[|xs| - 1]] else [])
  }

  /** The positions of the kept elements, in increasing order. */
  function KeptIndices<T>(xs: seq<T>, keep: T -> bool): (r: seq<nat>)
    ensures forall j :: 0 <= j < |r| ==> r[j] < |xs| && keep(xs[r[j]])
    ensures forall j, k :: 0 <= j < k < |r| ==> r[j] < r[k]
    ensures forall i :: 0 <= i < |xs| && keep(xs[i]) ==> i in r
  {
    if |xs| == 0 then []
    else
      var init := KeptIndices(xs[..|xs| - 1], keep);
      init + (if keep(xs[|xs| - 1]) then [|xs| - 1] else [])
  }

  /** The selection is exactly the kept elements, taken at increasing positions. */
  lemma {:induction false} SelectIsOrderedSubsequence<T>(xs: seq<T>, keep: T -> bool)
    ensures |Select(xs, keep)| == |KeptIndices(xs, keep)|
    ensures forall j :: 0 <= j < |Select(xs, keep)| ==> Select(xs, keep)[j] == xs[KeptIndices(xs, keep)[j]]
  {
    if |xs| > 0 {
      var init := xs[..|xs| - 1];
      SelectIsOrderedSubsequence(init, keep);
      var s0, k0 := Select(init, keep), KeptIndices(init, keep);
      var s, k := Select(xs, keep), KeptIndices(xs, keep);
      assert |s| == |k|;
      forall j | 0 <= j < |s|
        ensures s[j] == xs[k[j]]
      {
        if j < |s0| {
          assert s[j] == s0[j] && k[j] == k0[j];
          assert xs[k0[j]] == init[k0[j]];
        }
      }
    }
  }
}
